=== FILE: README.md ===
# student_api request pipeline, in Dafny

This project models the request-handling core of a small HTTP service for
one resource, the student. It covers the five handlers: create, read by id,
list with pagination, update by id and delete by id. Each handler decodes
the request, validates the payload against the `validate` struct tags of
`Student`, calls the store interface, and writes exactly one JSON envelope
with a status code.

Each handler is a pure function. It takes the request inputs (path id,
`limit`/`offset` query strings, the body decode outcome), the state of an
abstract store and a fault oracle. It returns the written response and the
store afterwards. In Go every error branch is a `return` after one
`WriteJson`; here each branch is one arm of a nested `match`, so exactly one
response is produced by construction.

Modules, one per source component:

- `Types`: the `Student` record.
- `Validation`: the struct tags as data (`Required`, `Email`, `Gte`, `Lte`
  per field, in declaration order). Also the validator semantics the
  handlers rely on: fields are checked in order, and only a field's first
  failing tag is reported. Email syntax is the parameter `isEmail`.
- `Response`: `WriteJson`, `GeneralError` and `ValidationError`. Also the
  per-tag message templates, the `", "` join, and a splitter that reads a
  joined message back.
- `Db`: the store interface. Rows are a map from id to `Student`, plus the
  next AUTOINCREMENT value. Which calls fail is an input (`Faults`).
- `Decimal`: `strconv.ParseInt(s, 10, 64)` and `strconv.Atoi` (identical on
  a 64-bit platform), and `%d`. These are modelled so that an id printed in
  a message can be proved to parse back.
- `Http`: the status codes.
- `Handlers`: `New`, `GetByID`, `GetList`, `UpdateByID`, `DeleteByID`.
- `Scenarios`: properties that relate several calls.

Where the code's behaviour departs from the API's evident intent, the model
follows the code:

- `ID` carries `validate:"required"`. A create or update payload whose `id`
  is absent or 0 is therefore rejected with "ID is required", although ids
  are meant to be server-assigned (`Scenarios.MissingIdIsRejected`).
- `Age` carries `required,gte=0,lte=110`, and `required` on an int means
  "non-zero". So age 0 is rejected with "Age is required", and the accepted
  range is 1..110 rather than 0..110.
- Any error from the lookup in read, update and delete gives 404. That
  includes store failures, not only a missing row.
- A `limit` above 50 is meant to be cut down to 50, never refused. But
  `strconv.Atoi` fails with a range error on a value above 2^63-1, so such a
  limit is refused with "invalid limit value"
  (`Scenarios.OutOfRangeLimitIsRejected`). An offset that large is
  likewise refused instead of giving an empty page.
- The check-then-act protocol of update and delete is kept: the lookup comes
  before the body is decoded, so an unknown id is 404 whatever the body is.

## Model

| member | source | states |
|---|---|---|
| Decimal.ParseInt | internal/http/handlers/student/student.go:79-85 | an accepted id or query value is an optional sign followed by at least one and only decimal digits (a bare "+" or "-" is refused), lies in the 64-bit range, and its sign matches the leading character; the empty string is refused |
| Decimal.FormatInt | internal/http/handlers/student/student.go:61 | the `%d` text is never empty, and starts with '-' exactly for negative numbers |
| Decimal.ParseIntOfFormatInt | internal/http/handlers/student/student.go:59-62 | every 64-bit id printed into a message parses back to the same id through the path-id parser |
| Decimal.FormatIntOutOfRange | internal/http/handlers/student/student.go:120 | a number outside the 64-bit range, written in decimal, does not parse: the parser reports a range error |
| Decimal.FormatIntInjective | internal/db/sqlite/sqlite.go:75-77 | distinct ids give distinct texts, so two different ids never get the same not-found message |
| Validation.StudentFields | internal/types/types.go:3-8 | the four fields in struct order ID, Name, Email, Age; every field carries `required` first, Email then `email`, Age then `gte=0` and `lte=110` |
| Validation.Passes | internal/types/types.go:4-7 | `required` holds exactly for a non-zero value (0 or "" fail); `email` holds exactly for a string the email predicate accepts; on an int, `gte`/`lte` hold exactly when the value is at least / at most the bound |
| Validation.FirstFailure | internal/types/types.go:6-7 | a field is reported exactly when some tag fails, and then with a failing tag from its own list |
| Validation.FirstFailureIsFirst | internal/types/types.go:6-7 | the reported tag is the first failing one: every tag written before it passes |
| Validation.ValidateFields | internal/types/types.go:3-8 | a list of fields yields no more violations than it has fields |
| Validation.ValidateFieldsReports | internal/types/types.go:3-8 | nothing is reported exactly when every field passes all its tags, and each reported violation is the single violation of one of the listed fields |
| Validation.ValidateFieldsAppend | internal/types/types.go:3-8 | violations come out in struct field order: validating two field lists one after the other gives the first list's violations followed by the second's |
| Validation.Validate | internal/types/types.go:3-8 | the payload is accepted exactly when id is non-zero, name and email are non-empty, email satisfies the email predicate and age is in 1..110; the violations are exactly the per-field list (ID, Name, Email, Age) |
| Validation.ValidateFollowsTags | internal/types/types.go:3-8 | the generic tag engine run over the Student tags gives the per-field list: age 0 reports `required`, a negative age `gte` with param "0", an age over 110 `lte` with param "110", and an empty email `required` rather than `email` |
| Response.WriteJson | internal/utils/response/response.go:23-28 | the Content-Type is always application/json and the status is written unchanged |
| Response.GeneralError | internal/utils/response/response.go:30-35 | the error envelope has status "Error" and the error's text as its message |
| Response.Message | internal/utils/response/response.go:40-51 | every template message starts with the field name followed by a space |
| Response.MessageCommaFree | internal/utils/response/response.go:40-51 | none of the five templates adds a comma of its own |
| Response.Messages | internal/utils/response/response.go:38-52 | one message per violation, in input order, each the template of that violation's tag |
| Response.Join | internal/utils/response/response.go:55 | joining no messages gives "" and joining one gives that message unchanged; `Response.JoinSnoc` states how a further message is appended, and `Response.UnjoinJoin` is its inverse |
| Response.JoinSnoc | internal/utils/response/response.go:55 | joining a non-empty list with one more message appended gives the old text, the separator, then that message |
| Response.JoinStrings | internal/utils/response/response.go:55 | cross-check of the `Join` definition that the envelope uses: the left-to-right loop by which `strings.Join` builds its result gives the same text |
| Response.ValidationError | internal/utils/response/response.go:37-57 | the status is "Error"; an empty violation list gives an empty message, and a single violation gives just its template |
| Response.ValidationErrorSnoc | internal/utils/response/response.go:53-56 | one more violation appends `", "` and its template message to the envelope's message |
| Response.UnjoinJoin | internal/utils/response/response.go:55 | joining comma-free messages with `", "` loses nothing: splitting at the commas gives the messages back |
| Response.ValidationErrorRecoverable | internal/utils/response/response.go:37-57 | for a non-empty list whose field names and params hold no comma, the envelope's message splits back into exactly one template message per violation, in order |
| Db.CreateStudent | internal/db/sqlite/sqlite.go:39-60 | a successful insert adds exactly one row, under a fresh id equal to the counter, holding the given fields; all other rows are untouched and the counter advances; it fails with the fault's text or when the counter is past the 64-bit range |
| Db.NotFoundError | internal/db/sqlite/sqlite.go:75-77 | the message is "student with ID ", the id in decimal, then " not found", and for a 64-bit id the text between prefix and suffix parses back to that id |
| Db.GetStudentByID | internal/db/sqlite/sqlite.go:63-82 | succeeds exactly when there is no fault and the row exists, returning it unchanged; a missing row gives "student with ID <id> not found" |
| Db.IdsBetween | internal/db/db.go:8 | the listed ids are present in the store, lie in the range, and are strictly ascending |
| Db.IdsBetweenComplete | internal/db/db.go:8 | no stored id in the range is left out of the listing |
| Db.Ordered | internal/db/db.go:8 | every stored row appears in the listing, each under its own id, in strictly ascending id order |
| Db.Page | internal/db/db.go:8 | a page holds min(limit, rows after offset) rows, namely the consecutive rows starting at offset, and is empty when offset is past the end |
| Db.GetStudents | internal/db/db.go:8 | without a fault the result holds at most `limit` rows and is the requested page; an empty page comes back as a nil slice |
| Db.UpdateStudentByID | internal/db/db.go:9 | on success the row with that id gets the new fields and keeps its id; no other row, key or the counter changes; an absent id changes nothing |
| Db.DeleteStudentByID | internal/db/db.go:10 | on success exactly that id's key is removed, the other rows and the counter are kept |
| Handlers.PathId | internal/http/handlers/student/student.go:72-85 | an empty path id is "missing student ID in URL", an unparsable one "invalid student ID", and otherwise the parsed 64-bit id |
| Handlers.CheckBody | internal/http/handlers/student/student.go:25-46 | a body is accepted exactly when it decodes and passes validation; an empty body is rejected with "empty body", a malformed one with the decoder's text, and an invalid one with the formatted validation message |
| Handlers.PageLimit | internal/http/handlers/student/student.go:111-137 | a missing limit means 10; a non-numeric or non-positive limit, or one outside the 64-bit range, is "invalid limit value"; a positive 64-bit limit is clamped to at most 50; every accepted limit lies in 1..50 |
| Handlers.PageOffset | internal/http/handlers/student/student.go:115-131 | a missing offset means 0; a non-numeric or negative offset, or one outside the 64-bit range, is "invalid offset value"; otherwise the parsed value |
| Handlers.New | internal/http/handlers/student/student.go:19-64 | status is 201, 400 or 500, and the store changes only on 201; 500 carries the insert's error text (the fault, or the full-counter error); 400 exactly when the body is empty, malformed or invalid; 201 exactly when the body is valid and the store accepts the insert, with `{"success":"OK"}`, "Student created with ID <id>" and one new row under the fresh id |
| Handlers.GetByID | internal/http/handlers/student/student.go:67-98 | status is 200, 400 or 404, and the store is unchanged; bad path ids give 400 before the store is consulted; any lookup error gives 404 with its text; 200 returns the stored row unchanged |
| Handlers.GetList | internal/http/handlers/student/student.go:102-156 | status is 200, 400 or 500; a bad limit is reported before a bad offset; a store failure gives 500 with the store's error text; 200 always carries an array (never null) holding the requested page of at most 50 rows |
| Handlers.UpdateByID | internal/http/handlers/student/student.go:159-226 | path-id errors give 400, then a failed lookup gives 404 whatever the body, then body errors give 400, then a write failure gives 500 with its text; the store changes only on 200, which replaces that row's fields and reports "Student updated with ID <id>" |
| Handlers.DeleteByID | internal/http/handlers/student/student.go:229-271 | path-id errors give 400, then a failed lookup gives 404, then a write failure gives 500 with its text; the store changes only on 200, which removes exactly that id and reports "Student deleted with ID <id>" |
| Scenarios.NewKeepsStorePersisted | internal/http/handlers/student/student.go:40-54 | whatever the body and faults, a create keeps the store well formed and never persists a row that fails validation |
| Scenarios.UpdateKeepsStorePersisted | internal/http/handlers/student/student.go:203-217 | whatever the body and faults, an update keeps the store well formed and every row valid |
| Scenarios.DeleteKeepsStorePersisted | internal/http/handlers/student/student.go:256-262 | a delete keeps the store well formed and every row valid |
| Scenarios.CreateThenGet | internal/http/handlers/student/student.go:49-96 | when the store does not fail, after a successful create, reading the id printed in the creation message returns 200 with the created fields |
| Scenarios.UnknownIdIsNotFound | internal/http/handlers/student/student.go:178-184 | when the lookup does not fail, an id with no row gives the same 404 "student with ID <id> not found" for read, update and delete, whatever the body, and writes nothing |
| Scenarios.DeletedIdIsGone | internal/http/handlers/student/student.go:248-269 | after a delete the id reads as 404, and a later create is given a different id |
| Scenarios.Lifecycle | internal/http/handlers/student/student.go:19-271 | when the store does not fail, create, read, update, read, delete, read on one id gives 201, the created fields, 200, the updated fields, 200, then 404 |
| Scenarios.EmptyStoreListsEmptyArray | internal/http/handlers/student/student.go:147-151 | listing an empty store with default parameters gives 200 with an empty array, not null |
| Scenarios.OffsetPastEndIsEmpty | internal/http/handlers/student/student.go:139-151 | when the store does not fail, an offset at or past the number of rows gives 200 with an empty array |
| Scenarios.LargeLimitIsClamped | internal/http/handlers/student/student.go:133-140 | any limit in 51..2^63-1 lists the first 50 rows (or all rows, if fewer) instead of being rejected |
| Scenarios.OutOfRangeLimitIsRejected | internal/http/handlers/student/student.go:120-125 | a limit above 2^63-1 is not clamped but refused with 400 "invalid limit value", whatever the offset |
| Scenarios.OutOfRangeOffsetIsRejected | internal/http/handlers/student/student.go:126-131 | an offset above 2^63-1 is refused with 400 "invalid offset value" rather than listing an empty page |
| Scenarios.LimitCheckedBeforeOffset | internal/http/handlers/student/student.go:119-131 | when both query parameters are bad, the response is 400 "invalid limit value" |
| Scenarios.AgeZeroIsRequired | internal/types/types.go:7 | with the other fields valid, age 0 gives exactly the message "Age is required" |
| Scenarios.NegativeAgeIsBelowMinimum | internal/types/types.go:7 | with the other fields valid, a negative age gives exactly the message "Age must be greater than or equal to 0" |
| Scenarios.AgeAboveMaximum | internal/types/types.go:7 | with the other fields valid, an age above 110 gives exactly the message "Age must be less than or equal to 110" |
| Scenarios.MissingIdIsRejected | internal/types/types.go:4 | a payload with id 0 is refused with 400 on create and is never applied on update, and the first reported problem is "ID is required" |
| Scenarios.StudentViolationsCommaFree | internal/types/types.go:3-8 | no field name or tag parameter of Student contains a comma |
| Scenarios.ValidationRecoverable | internal/utils/response/response.go:37-57 | for any invalid student, the error message splits back into one template message per violation, in field order |

## Left out

- Decimal.ParseInt: the contract fixes the value of an accepted text only through `Decimal.ParseIntOfFormatInt`, for the canonical `%d` text of an id. The value of a non-canonical text such as "+7" or "007" is given by the definition alone, not by the contract.
- JSON decoding is not modelled. Its outcome is an input: an empty body, a malformed body with the decoder's error text, or a decoded `Student` whose absent fields hold zero values.
- Email syntax is not modelled. It belongs to the validator library, so it is the uninterpreted parameter `isEmail`.
- JSON encoding of the response body is not modelled. A body is a `Payload` value, and the encoder's own errors (ignored in the code) are out of scope.
- Logging is left out because it has only side effects.
- Configuration loading is left out because it is file and environment I/O.
- Routing, server start-up and signal-driven shutdown are left out because they are I/O and concurrency. The delete handler is not registered with the router in `main`, but it is modelled here as a handler.
- The SQLite driver is replaced by the abstract store `Db`. Its SQL plumbing is not modelled. The SQLite type also does not implement listing, update or delete from the interface, so those follow the interface's contract instead.
- Store failures are modelled as text from the fault oracle `Faults(read, write)`. The SQLite code wraps query failures in "query error: …" and returns prepare failures unwrapped; that wording is part of the oracle's text, not modelled separately.
- Db.GetStudents: the interface does not fix an order. The model lists rows by ascending id, and an empty page is a nil slice.
- Db.UpdateStudentByID: an update of an absent id affects zero rows and is not an error. The handlers never reach this case, because they look the id up first.
- The race between the existence check and the write in update and delete is concurrency, so a sequential model leaves it out.
- Go's `int` is taken as 64 bits wide, so `Atoi` and `ParseInt(s, 10, 64)` accept the same strings.

=== FILE: db.dfy ===
/** The store interface the handlers are written against: rows keyed by id
    with an AUTOINCREMENT counter, and an oracle saying which calls fail.
    Listing returns rows in ascending id order. */
module Db {
  import opened Wrappers
  import opened Types
  import opened Decimal

  /** Rows by id, and the id the next insert receives. */
  datatype Store = Store(rows: map<int, Student>, nextId: int)

  /** Ids are positive 64-bit values below the counter, and each row carries its own key. */
  predicate Valid(st: Store) {
    && 1 <= st.nextId <= MaxInt64 + 1
    && forall k :: k in st.rows ==> 1 <= k < st.nextId && st.rows[k].id == k
  }

  const EmptyStore: Store := Store(map[], 1)

  /** Which store calls fail, and with what error text: `read` for the
      lookup and the listing, `write` for insert, update and delete. A
      failure can be anything the driver reports, so it is an input. */
  datatype Faults = Faults(read: Option<string>, write: Option<string>)

  const NoFaults: Faults := Faults(None, None)

  datatype Created = Created(id: int, store: Store)

  /** A Go slice of students: nil, or a non-nil (possibly empty) sequence. */
  datatype Slice = Nil | Items(elems: seq<Student>)
  {
    function Len(): nat {
      match this
      case Nil => 0
      case Items(xs) => |xs|
    }
  }

  /** What SQLite reports once the AUTOINCREMENT counter is exhausted. */
  const FullError: string := "database or disk is full"

  const NotFoundPrefix: string := "student with ID "
  const NotFoundSuffix: string := " not found"

  /** The not-found message; the id it names can be read back from it. */
  function NotFoundError(id: int): (m: string)
    ensures |NotFoundPrefix| + |NotFoundSuffix| < |m|
    ensures m[..|NotFoundPrefix|] == NotFoundPrefix && m[|m| - |NotFoundSuffix|..] == NotFoundSuffix
    ensures InInt64(id) ==> ParseInt(m[|NotFoundPrefix| .. |m| - |NotFoundSuffix|]) == Some(id)
  {
    var text := FormatInt(id);
    var m := NotFoundPrefix + text + NotFoundSuffix;
    assert m[|NotFoundPrefix| .. |m| - |NotFoundSuffix|] == text;
    assert InInt64(id) ==> ParseInt(text) == Some(id) by {
      if InInt64(id) {
        ParseIntOfFormatInt(id);
      }
    }
    m
  }

  /** Inserts a row under a fresh id and returns that id. */
  function CreateStudent(st: Store, name: string, email: string, age: int, fault: Option<string>): (r: Result<Created>)
    ensures r.Ok? <==> fault.None? && st.nextId <= MaxInt64
    ensures fault.Some? ==> r == Err(fault.value)
    ensures r.Ok? ==>
      var id := r.value.id;
      var st' := r.value.store;
      && id == st.nextId < st'.nextId
      && st'.rows.Keys == st.rows.Keys + {id}
      && st'.rows[id] == Student(id, name, email, age)
      && (forall k :: k in st.rows && k != id ==> st'.rows[k] == st.rows[k])
      && (Valid(st) ==> id !in st.rows && Valid(st'))
  {
    if fault.Some? then Err(fault.value)
    else if st.nextId > MaxInt64 then Err(FullError)
    else
      var id := st.nextId;
      Ok(Created(id, Store(st.rows[id := Student(id, name, email, age)], id + 1)))
  }

  /** The row with the given id; a missing row is reported with its id. */
  function GetStudentByID(st: Store, id: int, fault: Option<string>): (r: Result<Student>)
    ensures r.Ok? <==> fault.None? && id in st.rows
    ensures r.Ok? ==> r.value == st.rows[id]
    ensures fault.Some? ==> r == Err(fault.value)
    ensures fault.None? && id !in st.rows ==> r == Err(NotFoundError(id))
  {
    if fault.Some? then Err(fault.value)
    else if id in st.rows then Ok(st.rows[id])
    else Err(NotFoundError(id))
  }

  /** The ids of `m` in `[lo, hi)`, ascending. */
  function IdsBetween(m: map<int, Student>, lo: int, hi: int): (ids: seq<int>)
    ensures forall i :: 0 <= i < |ids| ==> ids[i] in m && lo <= ids[i] < hi
    ensures forall i, j :: 0 <= i < j < |ids| ==> ids[i] < ids[j]
    decreases hi - lo
  {
    if lo >= hi then []
    else
      var rest := IdsBetween(m, lo + 1, hi);
      if lo in m then
        var ids := [lo] + rest;
        assert forall i :: 1 <= i < |ids| ==> ids[i] == rest[i - 1];
        ids
      else rest
  }

  /** No id of `m` in `[lo, hi)` is left out. */
  lemma {:induction false} IdsBetweenComplete(m: map<int, Student>, lo: int, hi: int, k: int)
    requires k in m && lo <= k < hi
    ensures k in IdsBetween(m, lo, hi)
    decreases hi - lo
  {
    if k != lo {
      IdsBetweenComplete(m, lo + 1, hi, k);
    }
  }

  /** Every row once, in ascending id order. */
  function Ordered(st: Store): (rows: seq<Student>)
    ensures Valid(st) ==> forall i :: 0 <= i < |rows| ==> rows[i].id in st.rows && st.rows[rows[i].id] == rows[i]
    ensures Valid(st) ==> forall i, j :: 0 <= i < j < |rows| ==> rows[i].id < rows[j].id
    ensures Valid(st) ==> forall k :: k in st.rows ==> st.rows[k] in rows
  {
    var ids := IdsBetween(st.rows, 1, st.nextId);
    var rows := seq(|ids|, i requires 0 <= i < |ids| => st.rows[ids[i]]);
    assert Valid(st) ==> forall k :: k in st.rows ==> st.rows[k] in rows by {
      if Valid(st) {
        forall k | k in st.rows ensures st.rows[k] in rows {
          IdsBetweenComplete(st.rows, 1, st.nextId, k);
          var i :| 0 <= i < |ids| && ids[i] == k;
          assert rows[i] == st.rows[k];
        }
      }
    }
    rows
  }

  function Min(a: int, b: int): int {
    if a <= b then a else b
  }

  /** At most `limit` rows of the ordered listing, skipping the first `offset`. */
  function Page(st: Store, limit: nat, offset: nat): (page: seq<Student>)
    ensures |page| == if offset >= |Ordered(st)| then 0 else Min(limit, |Ordered(st)| - offset)
    ensures forall i :: 0 <= i < |page| ==> page[i] == Ordered(st)[offset + i]
  {
    var rows := Ordered(st);
    if offset >= |rows| then [] else rows[offset .. offset + Min(limit, |rows| - offset)]
  }

  /** The requested page. The SQLite store does not implement listing, so
      this model chooses that an empty page comes back as a nil slice, which
      exercises the handler's conversion of an empty result to `[]`. */
  function GetStudents(st: Store, limit: nat, offset: nat, fault: Option<string>): (r: Result<Slice>)
    ensures r.Ok? <==> fault.None?
    ensures fault.Some? ==> r == Err(fault.value)
    ensures r.Ok? ==> r.value.Len() <= limit
    ensures r.Ok? && r.value.Items? ==> r.value.elems == Page(st, limit, offset) != []
    ensures r.Ok? && r.value.Nil? ==> Page(st, limit, offset) == []
  {
    if fault.Some? then Err(fault.value)
    else
      var page := Page(st, limit, offset);
      if page == [] then Ok(Nil) else Ok(Items(page))
  }

  /** Replaces the mutable fields of the row with that id. An absent id is
      zero rows affected, which is not an error. */
  function UpdateStudentByID(st: Store, id: int, name: string, email: string, age: int, fault: Option<string>): (r: Result<Store>)
    ensures r.Ok? <==> fault.None?
    ensures fault.Some? ==> r == Err(fault.value)
    ensures r.Ok? ==> r.value.nextId == st.nextId && r.value.rows.Keys == st.rows.Keys
    ensures r.Ok? && id in st.rows ==> r.value.rows[id] == Student(id, name, email, age)
    ensures r.Ok? ==> forall k :: k in st.rows && k != id ==> r.value.rows[k] == st.rows[k]
    ensures r.Ok? && id !in st.rows ==> r.value == st
    ensures r.Ok? && Valid(st) ==> Valid(r.value)
  {
    if fault.Some? then Err(fault.value)
    else if id in st.rows then Ok(Store(st.rows[id := Student(id, name, email, age)], st.nextId))
    else Ok(st)
  }

  /** Removes the row with that id, if any. The counter is not wound back. */
  function DeleteStudentByID(st: Store, id: int, fault: Option<string>): (r: Result<Store>)
    ensures r.Ok? <==> fault.None?
    ensures fault.Some? ==> r == Err(fault.value)
    ensures r.Ok? ==> r.value.nextId == st.nextId && r.value.rows.Keys == st.rows.Keys - {id}
    ensures r.Ok? ==> forall k :: k in r.value.rows ==> r.value.rows[k] == st.rows[k]
    ensures r.Ok? && Valid(st) ==> Valid(r.value)
  {
    if fault.Some? then Err(fault.value)
    else Ok(Store(st.rows - {id}, st.nextId))
  }
}

=== FILE: decimal.dfy ===
/** Base-10 integer text as the handlers use it: `strconv.ParseInt(s, 10, 64)`
    and `strconv.Atoi` (identical on a 64-bit platform) to read path and query
    parameters, and the `%d` verb to print ids into messages. */
module Decimal {
  import opened Wrappers

  const MinInt64: int := -0x8000_0000_0000_0000
  const MaxInt64: int := 0x7FFF_FFFF_FFFF_FFFF

  predicate InInt64(n: int) {
    MinInt64 <= n <= MaxInt64
  }

  predicate IsDigit(c: char) {
    '0' <= c <= '9'
  }

  predicate AllDigits(s: string) {
    forall i :: 0 <= i < |s| ==> IsDigit(s[i])
  }

  function DigitValue(c: char): nat
    requires IsDigit(c)
  {
    (c as int) - ('0' as int)
  }

  function DigitChar(d: nat): (c: char)
    requires d < 10
    ensures IsDigit(c) && DigitValue(c) == d
  {
    (('0' as int) + d) as char
  }

  /** Value of a string of decimal digits, most significant digit first. */
  function DigitsValue(s: string): nat
    requires AllDigits(s)
  {
    if |s| == 0 then 0 else DigitsValue(s[..|s| - 1]) * 10 + DigitValue(s[|s| - 1])
  }

  /** Shortest decimal rendering of a natural number. */
  function FormatNat(n: nat): (s: string)
    ensures 0 < |s| && AllDigits(s)
    ensures 1 < |s| ==> s[0] != '0'
  {
    if n < 10 then [DigitChar(n)] else FormatNat(n / 10) + [DigitChar(n % 10)]
  }

  /** `fmt.Sprintf("%d", n)`. */
  function FormatInt(n: int): (s: string)
    ensures 0 < |s|
    ensures s[0] == '-' <==> n < 0
  {
    if n < 0 then "-" + FormatNat(-n) else FormatNat(n)
  }

  /** `strconv.ParseInt(s, 10, 64)`: an optional sign, then at least one
      decimal digit and nothing else; a value outside the 64-bit range is a
      range error. Every failure is `None`. */
  function ParseInt(s: string): (r: Option<int>)
    ensures r.Some? ==> 0 < |s| && InInt64(r.value)
    ensures r.Some? ==> IsDigit(s[0]) || s[0] == '+' || s[0] == '-'
    ensures r.Some? ==> forall i :: 0 < i < |s| ==> IsDigit(s[i])
    ensures r.Some? ==> IsDigit(s[|s| - 1])
    ensures r.Some? && s[0] == '-' ==> r.value <= 0
    ensures r.Some? && s[0] != '-' ==> 0 <= r.value
  {
    if |s| == 0 then None
    else
      var digits := if s[0] == '+' || s[0] == '-' then s[1..] else s;
      if |digits| == 0 || !AllDigits(digits) then None
      else
        var v: int := if s[0] == '-' then 0 - (DigitsValue(digits) as int) else DigitsValue(digits);
        if InInt64(v) then Some(v) else None
  }

  lemma {:induction false} DigitsValueOfFormatNat(n: nat)
    ensures DigitsValue(FormatNat(n)) == n
  {
    if n >= 10 {
      var s := FormatNat(n);
      assert s[..|s| - 1] == FormatNat(n / 10);
      DigitsValueOfFormatNat(n / 10);
    }
  }

  /** Every 64-bit integer printed with `%d` parses back to itself. */
  lemma ParseIntOfFormatInt(n: int)
    requires InInt64(n)
    ensures ParseInt(FormatInt(n)) == Some(n)
  {
    if n < 0 {
      var s := FormatInt(n);
      assert s[1..] == FormatNat(-n);
      DigitsValueOfFormatNat(-n);
    } else {
      DigitsValueOfFormatNat(n);
    }
  }

  /** A number outside the 64-bit range, printed with `%d`, is a range error
      for the parser. */
  lemma FormatIntOutOfRange(n: int)
    requires !InInt64(n)
    ensures ParseInt(FormatInt(n)) == None
  {
    if n < 0 {
      var s := FormatInt(n);
      assert s[1..] == FormatNat(-n);
      DigitsValueOfFormatNat(-n);
    } else {
      DigitsValueOfFormatNat(n);
    }
  }

  /** Printing is injective on the 64-bit range, so distinct ids give distinct messages. */
  lemma FormatIntInjective(m: int, n: int)
    requires InInt64(m) && InInt64(n) && m != n
    ensures FormatInt(m) != FormatInt(n)
  {
    ParseIntOfFormatInt(m);
    ParseIntOfFormatInt(n);
  }
}

=== FILE: handlers.dfy ===
/** The five request handlers of the student resource, each a pure function
    from the request's inputs and the store to the one response it writes and
    the store afterwards. Every error branch returns at once, so exactly one
    response is produced, and the store changes only on the success path. */
module Handlers {
  import opened Wrappers
  import opened Types
  import opened Validation
  import opened Decimal
  import opened Response
  import opened Db
  import Http

  /** Outcome of decoding the request body into a `Student`: `io.EOF` for
      an empty body, any other decode error by its text, or the decoded
      value (absent JSON fields hold their zero value). */
  datatype Body = Empty | Malformed(message: string) | Decoded(student: Student)

  /** The single response a handler writes, and the store afterwards. */
  datatype Outcome = Outcome(response: HttpResponse, store: Store)

  /** Upper bound on the page size of a listing. */
  const MaxLimit: int := 50

  function Reject(st: Store, status: int, message: string): Outcome {
    Outcome(WriteJson(status, GeneralError(message)), st)
  }

  /** The `{id}` path segment: required, then a 64-bit decimal integer. */
  function PathId(pathId: string): (r: Result<int>)
    ensures r.Ok? <==> pathId != "" && ParseInt(pathId).Some?
    ensures r.Ok? ==> r.value == ParseInt(pathId).value && InInt64(r.value)
    ensures pathId == "" ==> r == Err("missing student ID in URL")
    ensures pathId != "" && ParseInt(pathId).None? ==> r == Err("invalid student ID")
  {
    if pathId == "" then Err("missing student ID in URL")
    else
      match ParseInt(pathId)
      case None => Err("invalid student ID")
      case Some(id) => Ok(id)
  }

  /** The body either yields a student that passes validation, or the envelope to reject it with. */
  datatype Checked = Rejected(payload: Payload) | Accepted(student: Student)

  /** Decoding then validation, as create and update both do them. */
  function CheckBody(body: Body, isEmail: string -> bool): (c: Checked)
    ensures c.Accepted? <==> body.Decoded? && Conforms(body.student, isEmail)
    ensures c.Accepted? ==> c.student == body.student
    ensures body.Empty? ==> c == Rejected(GeneralError("empty body"))
    ensures body.Malformed? ==> c == Rejected(GeneralError(body.message))
    ensures body.Decoded? && !Conforms(body.student, isEmail) ==>
              c == Rejected(ValidationError(Validate(body.student, isEmail)))
  {
    match body
    case Empty => Rejected(GeneralError("empty body"))
    case Malformed(m) => Rejected(GeneralError(m))
    case Decoded(s) =>
      var vs := Validate(s, isEmail);
      if vs != [] then Rejected(ValidationError(vs)) else Accepted(s)
  }

  /** `limit` query parameter: "" means 10; it must parse and be positive;
      anything above 50 is cut down to 50. */
  function PageLimit(limitStr: string): (r: Result<int>)
    ensures r.Ok? ==> 1 <= r.value <= MaxLimit
    ensures limitStr == "" ==> r == Ok(10)
    ensures r.Err? ==> r.error == "invalid limit value"
    ensures r.Err? <==> limitStr != "" && (ParseInt(limitStr).None? || ParseInt(limitStr).value <= 0)
    ensures limitStr != "" && ParseInt(limitStr).Some? && ParseInt(limitStr).value > 0 ==>
              r == Ok(Min(ParseInt(limitStr).value, MaxLimit))
  {
    var s := if limitStr == "" then "10" else limitStr;
    assert ParseInt("10") == Some(10) by {
      ParseIntOfFormatInt(10);
      assert FormatInt(10) == "10";
    }
    match ParseInt(s)
    case None => Err("invalid limit value")
    case Some(n) =>
      if n <= 0 then Err("invalid limit value")
      else Ok(if n > MaxLimit then MaxLimit else n)
  }

  /** `offset` query parameter: "" means 0; it must parse and be non-negative. */
  function PageOffset(offsetStr: string): (r: Result<int>)
    ensures r.Ok? ==> 0 <= r.value
    ensures offsetStr == "" ==> r == Ok(0)
    ensures r.Err? ==> r.error == "invalid offset value"
    ensures r.Err? <==> offsetStr != "" && (ParseInt(offsetStr).None? || ParseInt(offsetStr).value < 0)
    ensures offsetStr != "" && ParseInt(offsetStr).Some? && ParseInt(offsetStr).value >= 0 ==>
              r == Ok(ParseInt(offsetStr).value)
  {
    var s := if offsetStr == "" then "0" else offsetStr;
    match ParseInt(s)
    case None => Err("invalid offset value")
    case Some(n) => if n < 0 then Err("invalid offset value") else Ok(n)
  }

  /** The JSON value of a slice: nil is `null`, anything else an array. */
  function SliceJson(sl: Slice): Payload {
    match sl
    case Nil => NullArray
    case Items(xs) => StudentArray(xs)
  }

  /** POST /api/students */
  function New(st: Store, body: Body, isEmail: string -> bool, faults: Faults): (o: Outcome)
    ensures o.response.contentType == ContentTypeJson
    ensures o.response.status in {Http.Created, Http.BadRequest, Http.InternalServerError}
    ensures o.response.status != Http.Created ==> o.store == st
    ensures o.response.status == Http.BadRequest <==> CheckBody(body, isEmail).Rejected?
    ensures o.response.status == Http.BadRequest ==> o.response.body == CheckBody(body, isEmail).payload
    ensures o.response.status == Http.Created <==>
              body.Decoded? && Conforms(body.student, isEmail) && faults.write.None? && st.nextId <= MaxInt64
    ensures o.response.status == Http.InternalServerError && faults.write.Some? ==>
              o.response.body == GeneralError(faults.write.value)
    ensures o.response.status == Http.InternalServerError ==>
              o.response.body == GeneralError(CreateStudent(st, body.student.name, body.student.email, body.student.age, faults.write).error)
    ensures o.response.status == Http.Created ==>
              var s := body.student;
              var id := st.nextId;
              && o.response.body == Ack("OK", "Student created with ID " + FormatInt(id))
              && o.store.nextId == id + 1
              && o.store.rows == st.rows[id := Student(id, s.name, s.email, s.age)]
              && (Valid(st) ==> id !in st.rows && Valid(o.store))
  {
    match CheckBody(body, isEmail)
    case Rejected(p) => Outcome(WriteJson(Http.BadRequest, p), st)
    case Accepted(s) =>
      match CreateStudent(st, s.name, s.email, s.age, faults.write)
      case Err(e) => Reject(st, Http.InternalServerError, e)
      case Ok(c) =>
        Outcome(WriteJson(Http.Created, Ack("OK", "Student created with ID " + FormatInt(c.id))), c.store)
  }

  /** GET /api/students/{id} */
  function GetByID(st: Store, pathId: string, faults: Faults): (o: Outcome)
    ensures o.response.contentType == ContentTypeJson && o.store == st
    ensures o.response.status in {Http.OK, Http.BadRequest, Http.NotFound}
    ensures o.response.status == Http.BadRequest <==> PathId(pathId).Err?
    ensures PathId(pathId).Err? ==> o.response.body == GeneralError(PathId(pathId).error)
    ensures o.response.status == Http.OK <==>
              PathId(pathId).Ok? && faults.read.None? && PathId(pathId).value in st.rows
    ensures o.response.status == Http.OK ==> o.response.body == StudentBody(st.rows[PathId(pathId).value])
    ensures o.response.status == Http.NotFound ==>
              o.response.body == GeneralError(GetStudentByID(st, PathId(pathId).value, faults.read).error)
  {
    match PathId(pathId)
    case Err(e) => Reject(st, Http.BadRequest, e)
    case Ok(id) =>
      match GetStudentByID(st, id, faults.read)
      case Err(e) => Reject(st, Http.NotFound, e)
      case Ok(s) => Outcome(WriteJson(Http.OK, StudentBody(s)), st)
  }

  /** GET /api/students?limit=&offset= */
  function GetList(st: Store, limitStr: string, offsetStr: string, faults: Faults): (o: Outcome)
    ensures o.response.contentType == ContentTypeJson && o.store == st
    ensures o.response.status in {Http.OK, Http.BadRequest, Http.InternalServerError}
    ensures o.response.body != NullArray
    ensures o.response.status == Http.BadRequest <==> PageLimit(limitStr).Err? || PageOffset(offsetStr).Err?
    ensures PageLimit(limitStr).Err? ==> o.response.body == GeneralError("invalid limit value")
    ensures PageLimit(limitStr).Ok? && PageOffset(offsetStr).Err? ==>
              o.response.body == GeneralError("invalid offset value")
    ensures o.response.status == Http.InternalServerError <==>
              PageLimit(limitStr).Ok? && PageOffset(offsetStr).Ok? && faults.read.Some?
    ensures o.response.status == Http.InternalServerError ==> o.response.body == GeneralError(faults.read.value)
    ensures o.response.status == Http.OK ==>
              && o.response.body.StudentArray?
              && |o.response.body.students| <= MaxLimit
              && o.response.body.students == Page(st, PageLimit(limitStr).value, PageOffset(offsetStr).value)
  {
    match PageLimit(limitStr)
    case Err(e) => Reject(st, Http.BadRequest, e)
    case Ok(limit) =>
      match PageOffset(offsetStr)
      case Err(e) => Reject(st, Http.BadRequest, e)
      case Ok(offset) =>
        match GetStudents(st, limit, offset, faults.read)
        case Err(e) => Reject(st, Http.InternalServerError, e)
        case Ok(students) =>
          if students.Len() == 0 then Outcome(WriteJson(Http.OK, StudentArray([])), st)
          else Outcome(WriteJson(Http.OK, SliceJson(students)), st)
  }

  /** PUT /api/students/{id} */
  function UpdateByID(st: Store, pathId: string, body: Body, isEmail: string -> bool, faults: Faults): (o: Outcome)
    ensures o.response.contentType == ContentTypeJson
    ensures o.response.status in {Http.OK, Http.BadRequest, Http.NotFound, Http.InternalServerError}
    ensures o.response.status != Http.OK ==> o.store == st
    ensures PathId(pathId).Err? ==> o.response == WriteJson(Http.BadRequest, GeneralError(PathId(pathId).error))
    ensures PathId(pathId).Ok? && GetStudentByID(st, PathId(pathId).value, faults.read).Err? ==>
              o.response == WriteJson(Http.NotFound,
                                      GeneralError(GetStudentByID(st, PathId(pathId).value, faults.read).error))
    ensures PathId(pathId).Ok? && GetStudentByID(st, PathId(pathId).value, faults.read).Ok?
            && CheckBody(body, isEmail).Rejected? ==>
              o.response == WriteJson(Http.BadRequest, CheckBody(body, isEmail).payload)
    ensures o.response.status == Http.OK <==>
              && PathId(pathId).Ok? && faults.read.None? && PathId(pathId).value in st.rows
              && body.Decoded? && Conforms(body.student, isEmail) && faults.write.None?
    ensures && PathId(pathId).Ok? && faults.read.None? && PathId(pathId).value in st.rows
            && CheckBody(body, isEmail).Accepted? && faults.write.Some? ==>
              o == Reject(st, Http.InternalServerError, faults.write.value)
    ensures o.response.status == Http.OK ==>
              var id := PathId(pathId).value;
              var s := body.student;
              && o.response.body == Ack("ok", "Student updated with ID " + FormatInt(id))
              && o.store == Store(st.rows[id := Student(id, s.name, s.email, s.age)], st.nextId)
  {
    match PathId(pathId)
    case Err(e) => Reject(st, Http.BadRequest, e)
    case Ok(id) =>
      match GetStudentByID(st, id, faults.read)
      case Err(e) => Reject(st, Http.NotFound, e)
      case Ok(_) =>
        match CheckBody(body, isEmail)
        case Rejected(p) => Outcome(WriteJson(Http.BadRequest, p), st)
        case Accepted(s) =>
          match UpdateStudentByID(st, id, s.name, s.email, s.age, faults.write)
          case Err(e) => Reject(st, Http.InternalServerError, e)
          case Ok(st') =>
            Outcome(WriteJson(Http.OK, Ack("ok", "Student updated with ID " + FormatInt(id))), st')
  }

  /** DELETE /api/students/{id} */
  function DeleteByID(st: Store, pathId: string, faults: Faults): (o: Outcome)
    ensures o.response.contentType == ContentTypeJson
    ensures o.response.status in {Http.OK, Http.BadRequest, Http.NotFound, Http.InternalServerError}
    ensures o.response.status != Http.OK ==> o.store == st
    ensures PathId(pathId).Err? ==> o.response == WriteJson(Http.BadRequest, GeneralError(PathId(pathId).error))
    ensures PathId(pathId).Ok? && GetStudentByID(st, PathId(pathId).value, faults.read).Err? ==>
              o.response == WriteJson(Http.NotFound,
                                      GeneralError(GetStudentByID(st, PathId(pathId).value, faults.read).error))
    ensures o.response.status == Http.OK <==>
              PathId(pathId).Ok? && faults.read.None? && PathId(pathId).value in st.rows && faults.write.None?
    ensures PathId(pathId).Ok? && faults.read.None? && PathId(pathId).value in st.rows && faults.write.Some? ==>
              o == Reject(st, Http.InternalServerError, faults.write.value)
    ensures o.response.status == Http.OK ==>
              var id := PathId(pathId).value;
              && o.response.body == Ack("ok", "Student deleted with ID " + FormatInt(id))
              && o.store == Store(st.rows - {id}, st.nextId)
  {
    match PathId(pathId)
    case Err(e) => Reject(st, Http.BadRequest, e)
    case Ok(id) =>
      match GetStudentByID(st, id, faults.read)
      case Err(e) => Reject(st, Http.NotFound, e)
      case Ok(_) =>
        match DeleteStudentByID(st, id, faults.write)
        case Err(e) => Reject(st, Http.InternalServerError, e)
        case Ok(st') =>
          Outcome(WriteJson(Http.OK, Ack("ok", "Student deleted with ID " + FormatInt(id))), st')
  }
}

=== FILE: http.dfy ===
/** The HTTP status codes the handlers write (`net/http` constants). */
module Http {
  const OK: int := 200
  const Created: int := 201
  const BadRequest: int := 400
  const NotFound: int := 404
  const InternalServerError: int := 500
}

=== FILE: response.dfy ===
/** The uniform response envelope: `WriteJson`, the error shape built by
    `GeneralError`, and the validation message formatter `ValidationError`. */
module Response {
  import opened Types
  import opened Validation

  const ContentTypeJson: string := "application/json"

  /** The value of the envelope's `status` field on every error. */
  const StatusError: string := "Error"

  /** The values a handler hands to the JSON encoder. A Go nil slice of
      students encodes as `null`, a non-nil one as an array. */
  datatype Payload =
    | ErrorBody(status: string, message: string)
    | Ack(success: string, message: string)
    | StudentBody(student: Student)
    | StudentArray(students: seq<Student>)
    | NullArray

  /** What reaches the client: the Content-Type header, the status line and the body. */
  datatype HttpResponse = HttpResponse(contentType: string, status: int, body: Payload)

  /** Sets the JSON content type, then writes the status unchanged, then the body. */
  function WriteJson(status: int, data: Payload): (r: HttpResponse)
    ensures r.contentType == "application/json"
    ensures r.status == status && r.body == data
  {
    HttpResponse(ContentTypeJson, status, data)
  }

  /** The error envelope for a Go error, represented by its text. */
  function GeneralError(err: string): (r: Payload)
    ensures r.ErrorBody? && r.status == "Error" && r.message == err
  {
    ErrorBody(StatusError, err)
  }

  predicate NoComma(s: string) {
    ',' !in s
  }

  /** The fixed template for one violation, chosen by its tag. */
  function Message(v: Violation): (m: string)
    ensures |v.field| < |m| && m[..|v.field|] == v.field && m[|v.field|] == ' '
  {
    if v.tag == "required" then v.field + " is required"
    else if v.tag == "email" then v.field + " must be a valid email"
    else if v.tag == "gte" then v.field + " must be greater than or equal to " + v.param
    else if v.tag == "lte" then v.field + " must be less than or equal to " + v.param
    else v.field + " is not valid"
  }

  lemma NoCommaConcat(a: string, b: string)
    requires NoComma(a) && NoComma(b)
    ensures NoComma(a + b)
  {
    assert forall c :: c in a + b ==> c in a || c in b;
  }

  /** The templates add no comma of their own. */
  lemma MessageCommaFree(v: Violation)
    requires NoComma(v.field) && NoComma(v.param)
    ensures NoComma(Message(v))
  {
    if v.tag == "required" {
      NoCommaConcat(v.field, " is required");
    } else if v.tag == "email" {
      NoCommaConcat(v.field, " must be a valid email");
    } else if v.tag == "gte" {
      NoCommaConcat(v.field, " must be greater than or equal to ");
      NoCommaConcat(v.field + " must be greater than or equal to ", v.param);
    } else if v.tag == "lte" {
      NoCommaConcat(v.field, " must be less than or equal to ");
      NoCommaConcat(v.field + " must be less than or equal to ", v.param);
    } else {
      NoCommaConcat(v.field, " is not valid");
    }
  }

  /** One message per violation, in input order, as the formatter's loop appends them. */
  function Messages(vs: seq<Violation>): (ms: seq<string>)
    ensures |ms| == |vs|
    ensures forall i :: 0 <= i < |vs| ==> ms[i] == Message(vs[i])
  {
    if |vs| == 0 then []
    else
      var init := vs[..|vs| - 1];
      var prefix := Messages(init);
      assert forall i :: 0 <= i < |init| ==> init[i] == vs[i];
      prefix + [Message(vs[|vs| - 1])]
  }

  /** `strings.Join`: the elements with `sep` between consecutive ones. */
  function Join(elems: seq<string>, sep: string): (s: string)
    ensures elems == [] ==> s == ""
    ensures |elems| == 1 ==> s == elems[0]
  {
    if |elems| == 0 then ""
    else if |elems| == 1 then elems[0]
    else
      elems[0] + sep + Join(elems[1..], sep)
  }

  lemma {:induction false} JoinSnoc(elems: seq<string>, x: string, sep: string)
    requires |elems| > 0
    ensures Join(elems + [x], sep) == Join(elems, sep) + sep + x
  {
    if |elems| > 1 {
      assert (elems + [x])[1..] == elems[1..] + [x];
      JoinSnoc(elems[1..], x, sep);
    } else {
      assert (elems + [x])[1..] == [x];
    }
  }

  /** The joining loop of `strings.Join`: the first element, then `sep` and
      the next element, left to right. It checks the recursive `Join` that
      `ValidationError` is defined with against the way the library builds
      the text. */
  method JoinStrings(elems: seq<string>, sep: string) returns (s: string)
    ensures s == Join(elems, sep)
  {
    if |elems| == 0 {
      return "";
    }
    s := elems[0];
    var i := 1;
    while i < |elems|
      invariant 1 <= i <= |elems|
      invariant s == Join(elems[..i], sep)
    {
      assert elems[..i + 1] == elems[..i] + [elems[i]];
      JoinSnoc(elems[..i], elems[i], sep);
      s := s + sep + elems[i];
      i := i + 1;
    }
    assert elems[..i] == elems;
  }

  /** The error envelope for a failed validation. */
  function ValidationError(vs: seq<Violation>): (r: Payload)
    ensures r.ErrorBody? && r.status == "Error"
    ensures vs == [] ==> r.message == ""
    ensures |vs| == 1 ==> r.message == Message(vs[0])
  {
    ErrorBody(StatusError, Join(Messages(vs), ", "))
  }

  /** A further violation appends `", "` and its message to the envelope's message. */
  lemma {:induction false} ValidationErrorSnoc(vs: seq<Violation>, v: Violation)
    requires |vs| > 0
    ensures ValidationError(vs + [v]).message == ValidationError(vs).message + ", " + Message(v)
  {
    assert (vs + [v])[..|vs|] == vs;
    JoinSnoc(Messages(vs), Message(v), ", ");
  }

  /** `strings.Split(s, string(c))`. */
  function SplitOn(s: string, c: char): (parts: seq<string>)
    ensures |parts| >= 1
    decreases |s|
  {
    if |s| == 0 then [""]
    else
      var rest := SplitOn(s[1..], c);
      if s[0] == c then [""] + rest else [[s[0]] + rest[0]] + rest[1..]
  }

  /** `strings.TrimPrefix(p, " ")` on every part. */
  function TrimLeadingSpace(ps: seq<string>): (qs: seq<string>)
    ensures |qs| == |ps|
  {
    if |ps| == 0 then []
    else
      var p := ps[0];
      [if |p| > 0 && p[0] == ' ' then p[1..] else p] + TrimLeadingSpace(ps[1..])
  }

  /** Reads a `", "`-joined message back into its parts. */
  function Unjoin(s: string): seq<string> {
    var ps := SplitOn(s, ',');
    [ps[0]] + TrimLeadingSpace(ps[1..])
  }

  /** Each element with a leading space, as the joined text carries it after a comma. */
  function SpacePrefixed(ms: seq<string>): (ps: seq<string>)
    ensures |ps| == |ms|
  {
    if |ms| == 0 then [] else [" " + ms[0]] + SpacePrefixed(ms[1..])
  }

  lemma {:induction false} SplitWithoutSeparator(a: string, c: char)
    requires c !in a
    ensures SplitOn(a, c) == [a]
  {
    if |a| > 0 {
      SplitWithoutSeparator(a[1..], c);
      assert [a[0]] + a[1..] == a;
    }
  }

  lemma {:induction false} TrimSpacePrefixed(ms: seq<string>)
    ensures TrimLeadingSpace(SpacePrefixed(ms)) == ms
  {
    if |ms| > 0 {
      var p := " " + ms[0];
      assert p[1..] == ms[0];
      TrimSpacePrefixed(ms[1..]);
    }
  }

  lemma {:induction false} SplitJoin(ms: seq<string>)
    requires |ms| > 0
    requires forall i :: 0 <= i < |ms| ==> NoComma(ms[i])
    ensures SplitOn(Join(ms, ", "), ',') == [ms[0]] + SpacePrefixed(ms[1..])
  {
    if |ms| == 1 {
      SplitWithoutSeparator(ms[0], ',');
    } else {
      var tail := Join(ms[1..], ", ");
      SplitJoin(ms[1..]);
      var rest := SplitOn(tail, ',');
      assert rest == [ms[1]] + SpacePrefixed(ms[2..]) by {
        assert ms[1..][1..] == ms[2..];
      }
      var spaced := " " + tail;
      assert spaced[1..] == tail;
      assert SplitOn(spaced, ',') == [" " + ms[1]] + SpacePrefixed(ms[2..]);
      assert SpacePrefixed(ms[1..]) == [" " + ms[1]] + SpacePrefixed(ms[2..]) by {
        assert ms[1..][1..] == ms[2..];
      }
      assert Join(ms, ", ") == ms[0] + [','] + spaced;
      SplitAfterPrefix(ms[0], spaced, ',');
    }
  }

  lemma {:induction false} SplitAfterPrefix(a: string, b: string, c: char)
    requires c !in a
    ensures SplitOn(a + [c] + b, c) == [a] + SplitOn(b, c)
  {
    var s := a + [c] + b;
    if |a| == 0 {
      assert s[1..] == b;
    } else {
      assert s[1..] == a[1..] + [c] + b;
      SplitAfterPrefix(a[1..], b, c);
      assert [a[0]] + a[1..] == a;
    }
  }

  /** Joining comma-free messages with `", "` loses nothing: splitting the
      text at the commas and dropping the space after each gives them back. */
  lemma {:induction false} UnjoinJoin(ms: seq<string>)
    requires |ms| > 0
    requires forall i :: 0 <= i < |ms| ==> NoComma(ms[i])
    ensures Unjoin(Join(ms, ", ")) == ms
  {
    var tail := SpacePrefixed(ms[1..]);
    SplitJoin(ms);
    TrimSpacePrefixed(ms[1..]);
    assert ([ms[0]] + tail)[0] == ms[0] && ([ms[0]] + tail)[1..] == tail;
    assert [ms[0]] + ms[1..] == ms;
  }

  /** The envelope of a non-empty list of violations, none of whose field
      names or parameters holds a comma, yields back exactly one message per
      violation, in input order. */
  lemma {:induction false} ValidationErrorRecoverable(vs: seq<Violation>)
    requires |vs| > 0
    requires forall i :: 0 <= i < |vs| ==> NoComma(vs[i].field) && NoComma(vs[i].param)
    ensures Unjoin(ValidationError(vs).message) == Messages(vs)
  {
    var ms := Messages(vs);
    assert forall i :: 0 <= i < |ms| ==> NoComma(ms[i]) by {
      forall i | 0 <= i < |ms| ensures NoComma(ms[i]) {
        MessageCommaFree(vs[i]);
      }
    }
    UnjoinJoin(ms);
  }
}

=== FILE: scenarios.dfy ===
/** Properties that relate several handler calls, or a handler to the
    invariants of the store behind it. */
module Scenarios {
  import opened Types
  import opened Validation
  import opened Decimal
  import opened Response
  import opened Db
  import opened Handlers
  import Http

  /** The store is well formed and every row in it passes validation. */
  predicate Persisted(st: Store, isEmail: string -> bool) {
    && Valid(st)
    && forall k :: k in st.rows ==> Conforms(st.rows[k], isEmail)
  }

  /** Validation runs before every write, so whatever the request and
      whichever store calls fail, a create never persists a row that
      violates the field rules. */
  lemma NewKeepsStorePersisted(st: Store, body: Body, isEmail: string -> bool, faults: Faults)
    requires Persisted(st, isEmail)
    ensures Persisted(New(st, body, isEmail, faults).store, isEmail)
  {
  }

  /** The same for an update, which also keeps every id where it was. */
  lemma UpdateKeepsStorePersisted(st: Store, pathId: string, body: Body, isEmail: string -> bool, faults: Faults)
    requires Persisted(st, isEmail)
    ensures Persisted(UpdateByID(st, pathId, body, isEmail, faults).store, isEmail)
  {
    var u := UpdateByID(st, pathId, body, isEmail, faults);
    if u.response.status == Http.OK {
      var id := PathId(pathId).value;
      assert id in st.rows;
      assert Valid(u.store);
    }
  }

  /** A delete only removes rows. */
  lemma DeleteKeepsStorePersisted(st: Store, pathId: string, isEmail: string -> bool, faults: Faults)
    requires Persisted(st, isEmail)
    ensures Persisted(DeleteByID(st, pathId, faults).store, isEmail)
  {
  }

  /** A created student can be read back through the id printed in the
      creation message, with the fields it was created with. */
  lemma CreateThenGet(st: Store, p: Student, isEmail: string -> bool)
    requires Valid(st) && st.nextId <= MaxInt64
    requires Conforms(p, isEmail)
    ensures var c := New(st, Decoded(p), isEmail, NoFaults);
            var path := FormatInt(st.nextId);
            && c.response == WriteJson(Http.Created, Ack("OK", "Student created with ID " + path))
            && GetByID(c.store, path, NoFaults).response
               == WriteJson(Http.OK, StudentBody(Student(st.nextId, p.name, p.email, p.age)))
  {
    ParseIntOfFormatInt(st.nextId);
  }

  /** An id with no row is 404 for reading, updating and deleting, whatever
      the body, and nothing is written. */
  lemma UnknownIdIsNotFound(st: Store, id: int, body: Body, isEmail: string -> bool, faults: Faults)
    requires InInt64(id) && id !in st.rows && faults.read.None?
    ensures var path := FormatInt(id);
            var notFound := WriteJson(Http.NotFound, GeneralError("student with ID " + path + " not found"));
            && GetByID(st, path, faults) == Outcome(notFound, st)
            && UpdateByID(st, path, body, isEmail, faults) == Outcome(notFound, st)
            && DeleteByID(st, path, faults) == Outcome(notFound, st)
  {
    ParseIntOfFormatInt(id);
  }

  /** After a delete the id reads as not found, and a later create is given
      a different id. */
  lemma DeletedIdIsGone(st: Store, id: int, p: Student, isEmail: string -> bool)
    requires Valid(st) && id in st.rows
    requires Conforms(p, isEmail)
    ensures var d := DeleteByID(st, FormatInt(id), NoFaults);
            && d.response.status == Http.OK
            && GetByID(d.store, FormatInt(id), NoFaults).response.status == Http.NotFound
            && (New(d.store, Decoded(p), isEmail, NoFaults).response.status == Http.Created ==>
                  d.store.nextId != id)
  {
    ParseIntOfFormatInt(id);
  }

  /** Create, read, update, read, delete, read on one id, with no store
      failures: 201, 200 with the created fields, 200, 200 with the updated
      fields, 200, then 404. */
  lemma Lifecycle(st: Store, p: Student, q: Student, isEmail: string -> bool)
    requires Valid(st) && st.nextId <= MaxInt64
    requires Conforms(p, isEmail) && Conforms(q, isEmail)
    ensures var id := st.nextId;
            var path := FormatInt(id);
            var c := New(st, Decoded(p), isEmail, NoFaults);
            var g1 := GetByID(c.store, path, NoFaults);
            var u := UpdateByID(c.store, path, Decoded(q), isEmail, NoFaults);
            var g2 := GetByID(u.store, path, NoFaults);
            var d := DeleteByID(u.store, path, NoFaults);
            var g3 := GetByID(d.store, path, NoFaults);
            && c.response.status == Http.Created
            && g1.response.body == StudentBody(Student(id, p.name, p.email, p.age))
            && u.response.status == Http.OK
            && g2.response.body == StudentBody(Student(id, q.name, q.email, q.age))
            && d.response.status == Http.OK
            && g3.response == WriteJson(Http.NotFound, GeneralError(NotFoundError(id)))
  {
    ParseIntOfFormatInt(st.nextId);
  }

  /** Listing an empty store with the default parameters gives an empty
      array, never `null`. */
  lemma EmptyStoreListsEmptyArray()
    ensures GetList(EmptyStore, "", "", NoFaults).response == WriteJson(Http.OK, StudentArray([]))
  {
    assert IdsBetween(EmptyStore.rows, 1, 1) == [];
  }

  /** An offset at or past the number of rows is not an error: 200 with an empty array. */
  lemma OffsetPastEndIsEmpty(st: Store, limitStr: string, offset: int)
    requires PageLimit(limitStr).Ok?
    requires InInt64(offset) && |Ordered(st)| <= offset
    ensures GetList(st, limitStr, FormatInt(offset), NoFaults).response == WriteJson(Http.OK, StudentArray([]))
  {
    ParseIntOfFormatInt(offset);
  }

  /** A limit above the cap lists the first 50 rows (or all, if fewer), not an error. */
  lemma LargeLimitIsClamped(st: Store, limit: int)
    requires MaxLimit < limit <= MaxInt64
    ensures var rows := Ordered(st);
            GetList(st, FormatInt(limit), "", NoFaults).response
            == WriteJson(Http.OK, StudentArray(rows[..Min(MaxLimit, |rows|)]))
  {
    ParseIntOfFormatInt(limit);
    var rows := Ordered(st);
    var page := Page(st, MaxLimit, 0);
    assert page == rows[..Min(MaxLimit, |rows|)];
  }

  /** A limit beyond the 64-bit range is not clamped: the parser reports a
      range error, so it is refused like a non-numeric one. */
  lemma OutOfRangeLimitIsRejected(st: Store, limit: int, offsetStr: string, faults: Faults)
    requires MaxInt64 < limit
    ensures GetList(st, FormatInt(limit), offsetStr, faults).response
            == WriteJson(Http.BadRequest, GeneralError("invalid limit value"))
  {
    FormatIntOutOfRange(limit);
  }

  /** Likewise an offset beyond the 64-bit range is refused, not treated as past the end. */
  lemma OutOfRangeOffsetIsRejected(st: Store, offset: int, faults: Faults)
    requires MaxInt64 < offset
    ensures GetList(st, "", FormatInt(offset), faults).response
            == WriteJson(Http.BadRequest, GeneralError("invalid offset value"))
  {
    FormatIntOutOfRange(offset);
    assert PageLimit("").Ok?;
  }

  /** When both query parameters are bad, the limit is reported. */
  lemma LimitCheckedBeforeOffset(st: Store, limitStr: string, offsetStr: string, faults: Faults)
    requires PageLimit(limitStr).Err? && PageOffset(offsetStr).Err?
    ensures GetList(st, limitStr, offsetStr, faults).response
            == WriteJson(Http.BadRequest, GeneralError("invalid limit value"))
  {
  }

  /** The other fields are valid, so only Age can be reported. */
  predicate OnlyAgeInQuestion(s: Student, isEmail: string -> bool) {
    s.id != 0 && s.name != "" && s.email != "" && isEmail(s.email)
  }

  lemma OnlyAgeViolations(s: Student, isEmail: string -> bool)
    requires OnlyAgeInQuestion(s, isEmail)
    ensures Validate(s, isEmail) == AgeViolations(s)
  {
    assert IdViolations(s) == [] && NameViolations(s) == [] && EmailViolations(s, isEmail) == [];
  }

  /** Age 0 is the zero value, so `required` fails first. */
  lemma AgeZeroIsRequired(s: Student, isEmail: string -> bool)
    requires OnlyAgeInQuestion(s, isEmail) && s.age == 0
    ensures ValidationError(Validate(s, isEmail)).message == "Age" + " is required"
  {
    OnlyAgeViolations(s, isEmail);
    OneViolationMessage(Validate(s, isEmail), Violation("Age", "required", ""));
  }

  /** A negative age passes `required` (it is non-zero) and fails `gte=0`. */
  lemma NegativeAgeIsBelowMinimum(s: Student, isEmail: string -> bool)
    requires OnlyAgeInQuestion(s, isEmail) && s.age < 0
    ensures ValidationError(Validate(s, isEmail)).message == "Age" + " must be greater than or equal to " + "0"
  {
    OnlyAgeViolations(s, isEmail);
    OneViolationMessage(Validate(s, isEmail), Violation("Age", "gte", "0"));
  }

  /** An age above 110 fails `lte=110`. */
  lemma AgeAboveMaximum(s: Student, isEmail: string -> bool)
    requires OnlyAgeInQuestion(s, isEmail) && s.age > 110
    ensures ValidationError(Validate(s, isEmail)).message == "Age" + " must be less than or equal to " + "110"
  {
    OnlyAgeViolations(s, isEmail);
    OneViolationMessage(Validate(s, isEmail), Violation("Age", "lte", "110"));
  }

  lemma OneViolationMessage(vs: seq<Violation>, v: Violation)
    requires vs == [v]
    ensures ValidationError(vs).message == Message(v)
  {
  }

  /** A payload without an id (JSON zero value) is refused on create and on
      update, and the first reported problem is the id. */
  lemma {:induction false} MissingIdIsRejected(st: Store, pathId: string, s: Student, isEmail: string -> bool, faults: Faults)
    requires s.id == 0
    ensures var c := New(st, Decoded(s), isEmail, faults);
            && c == Outcome(WriteJson(Http.BadRequest, ValidationError(Validate(s, isEmail))), st)
            && Unjoin(c.response.body.message)[0] == "ID" + " is required"
    ensures UpdateByID(st, pathId, Decoded(s), isEmail, faults).response.status != Http.OK
  {
    var vs := Validate(s, isEmail);
    var v := Violation("ID", "required", "");
    assert vs[0] == v;
    ValidationRecoverable(s, isEmail);
    assert Messages(vs)[0] == Message(v);
  }

  predicate CommaFree(vs: seq<Violation>) {
    forall i :: 0 <= i < |vs| ==> NoComma(vs[i].field) && NoComma(vs[i].param)
  }

  lemma CommaFreeAppend(a: seq<Violation>, b: seq<Violation>)
    requires CommaFree(a) && CommaFree(b)
    ensures CommaFree(a + b)
  {
    assert forall i :: |a| <= i < |a + b| ==> (a + b)[i] == b[i - |a|];
  }

  /** None of the field names or tag parameters of `Student` holds a comma. */
  lemma {:induction false} StudentViolationsCommaFree(s: Student, isEmail: string -> bool)
    ensures CommaFree(Validate(s, isEmail))
  {
    var a, b, c, d := IdViolations(s), NameViolations(s), EmailViolations(s, isEmail), AgeViolations(s);
    assert CommaFree(a) && CommaFree(b);
    assert CommaFree(c);
    assert CommaFree(d);
    CommaFreeAppend(c, d);
    CommaFreeAppend(b, c + d);
    CommaFreeAppend(a, b + (c + d));
  }

  /** For any student that fails validation, the error message splits back
      into one template message per violation, in field order. */
  lemma {:induction false} ValidationRecoverable(s: Student, isEmail: string -> bool)
    requires !Conforms(s, isEmail)
    ensures Unjoin(ValidationError(Validate(s, isEmail)).message) == Messages(Validate(s, isEmail))
  {
    StudentViolationsCommaFree(s, isEmail);
    ValidationErrorRecoverable(Validate(s, isEmail));
  }
}

=== FILE: types.dfy ===
/** The single entity of the service, as decoded from a JSON request body or
    read back from the store. */
module Types {

  datatype Student = Student(id: int, name: string, email: string, age: int)
}

=== FILE: validation.dfy ===
/** The `validate` struct tags of `Student` and the validator semantics the
    handlers rely on: fields are checked in declaration order, the tags of one
    field left to right, and only a field's first failing tag is reported. */
module Validation {
  import opened Wrappers
  import opened Types

  /** One entry of the validator's error list: `Field()`, `ActualTag()`, `Param()`. */
  datatype Violation = Violation(field: string, tag: string, param: string)

  /** A single tag of a `validate:"..."` list; `Gte`/`Lte` keep the parameter
      both as a number and as the text written in the tag. */
  datatype Rule = Required | Email | Gte(bound: int, text: string) | Lte(bound: int, text: string)
  {
    function Tag(): string {
      match this
      case Required => "required"
      case Email => "email"
      case Gte(_, _) => "gte"
      case Lte(_, _) => "lte"
    }

    function Param(): string {
      match this
      case Gte(_, p) => p
      case Lte(_, p) => p
      case _ => ""
    }
  }

  datatype Value = IntValue(i: int) | StrValue(s: string)

  datatype Field = Field(name: string, value: Value, rules: seq<Rule>)

  /** The struct in field order, each field with its tag list. */
  function StudentFields(s: Student): (fs: seq<Field>)
    ensures |fs| == 4
    ensures fs[0].name == "ID" && fs[1].name == "Name" && fs[2].name == "Email" && fs[3].name == "Age"
    ensures forall i :: 0 <= i < |fs| ==> |fs[i].rules| > 0 && fs[i].rules[0] == Required
    ensures fs[2].rules[1..] == [Email]
    ensures fs[3].rules[1..] == [Gte(0, "0"), Lte(110, "110")]
  {
    [ Field("ID", IntValue(s.id), [Required]),
      Field("Name", StrValue(s.name), [Required]),
      Field("Email", StrValue(s.email), [Required, Email]),
      Field("Age", IntValue(s.age), [Required, Gte(0, "0"), Lte(110, "110")]) ]
  }

  /** The zero value of a field's type. */
  predicate IsZero(v: Value) {
    v == IntValue(0) || v == StrValue("")
  }

  /** Whether a value satisfies one tag. `required` means "not the zero
      value"; `gte`/`lte` compare an int, or a string's length; email syntax
      belongs to the validator library and is the parameter `isEmail`. */
  predicate Passes(r: Rule, v: Value, isEmail: string -> bool)
    ensures r.Required? ==> (Passes(r, v, isEmail) <==> !IsZero(v))
    ensures r.Email? ==> (Passes(r, v, isEmail) <==> v.StrValue? && isEmail(v.s))
    ensures r.Gte? && v.IntValue? ==> (Passes(r, v, isEmail) <==> r.bound <= v.i)
    ensures r.Lte? && v.IntValue? ==> (Passes(r, v, isEmail) <==> v.i <= r.bound)
  {
    match r
    case Required => (match v case IntValue(i) => i != 0 case StrValue(s) => s != "")
    case Email => v.StrValue? && isEmail(v.s)
    case Gte(b, _) => (match v case IntValue(i) => i >= b case StrValue(s) => |s| >= b)
    case Lte(b, _) => (match v case IntValue(i) => i <= b case StrValue(s) => |s| <= b)
  }

  /** The first tag of the list that the value fails, if any. */
  function FirstFailure(rules: seq<Rule>, v: Value, isEmail: string -> bool): (r: Option<Rule>)
    ensures r.None? <==> forall i :: 0 <= i < |rules| ==> Passes(rules[i], v, isEmail)
    ensures r.Some? ==> r.value in rules && !Passes(r.value, v, isEmail)
  {
    if |rules| == 0 then None
    else if !Passes(rules[0], v, isEmail) then Some(rules[0])
    else
      var r := FirstFailure(rules[1..], v, isEmail);
      assert forall i :: 1 <= i < |rules| ==> rules[i] == rules[1..][i - 1];
      r
  }

  /** The tag reported is the first failing one: every tag before it passes. */
  lemma {:induction false} FirstFailureIsFirst(rules: seq<Rule>, v: Value, isEmail: string -> bool)
    ensures FirstFailure(rules, v, isEmail).Some? ==>
              exists i :: 0 <= i < |rules| && rules[i] == FirstFailure(rules, v, isEmail).value
                          && forall j :: 0 <= j < i ==> Passes(rules[j], v, isEmail)
  {
    if |rules| > 0 && Passes(rules[0], v, isEmail) {
      var tail := rules[1..];
      FirstFailureIsFirst(tail, v, isEmail);
      if FirstFailure(tail, v, isEmail).Some? {
        var i :| 0 <= i < |tail| && tail[i] == FirstFailure(tail, v, isEmail).value
                 && forall j :: 0 <= j < i ==> Passes(tail[j], v, isEmail);
        assert rules[i + 1] == tail[i];
        assert forall j :: 1 <= j < i + 1 ==> rules[j] == tail[j - 1];
      }
    } else if |rules| > 0 {
      assert rules[0] == FirstFailure(rules, v, isEmail).value;
    }
  }

  function FieldViolations(f: Field, isEmail: string -> bool): (vs: seq<Violation>)
    ensures |vs| <= 1
  {
    match FirstFailure(f.rules, f.value, isEmail)
    case None => []
    case Some(r) => [Violation(f.name, r.Tag(), r.Param())]
  }

  /** All violations of a list of fields, in field order. */
  function ValidateFields(fs: seq<Field>, isEmail: string -> bool): (vs: seq<Violation>)
    ensures |vs| <= |fs|
  {
    if |fs| == 0 then [] else FieldViolations(fs[0], isEmail) + ValidateFields(fs[1..], isEmail)
  }

  /** `v` is the one violation some field of `fs` contributes. */
  predicate ReportedBy(fs: seq<Field>, v: Violation, isEmail: string -> bool) {
    exists i :: 0 <= i < |fs| && FieldViolations(fs[i], isEmail) == [v]
  }

  /** Nothing is reported exactly when every field passes all its tags, and
      each reported violation is the single violation of one listed field. */
  lemma {:induction false} ValidateFieldsReports(fs: seq<Field>, isEmail: string -> bool)
    ensures ValidateFields(fs, isEmail) == [] <==>
              forall i :: 0 <= i < |fs| ==> FirstFailure(fs[i].rules, fs[i].value, isEmail).None?
    ensures forall k :: 0 <= k < |ValidateFields(fs, isEmail)| ==> ReportedBy(fs, ValidateFields(fs, isEmail)[k], isEmail)
  {
    if |fs| > 0 {
      var rest := fs[1..];
      ValidateFieldsReports(rest, isEmail);
      var head := FieldViolations(fs[0], isEmail);
      var tail := ValidateFields(rest, isEmail);
      var vs := head + tail;
      assert ValidateFields(fs, isEmail) == vs;
      assert forall i :: 1 <= i < |fs| ==> fs[i] == rest[i - 1];
      forall k | 0 <= k < |vs|
        ensures ReportedBy(fs, vs[k], isEmail)
      {
        if k < |head| {
          assert FieldViolations(fs[0], isEmail) == [vs[k]];
        } else {
          assert vs[k] == tail[k - |head|];
          assert ReportedBy(rest, tail[k - |head|], isEmail);
          var i :| 0 <= i < |rest| && FieldViolations(rest[i], isEmail) == [vs[k]];
          assert fs[i + 1] == rest[i];
        }
      }
    }
  }

  /** Validating the concatenation of two field lists reports the first
      list's violations, then the second's. */
  lemma {:induction false} ValidateFieldsAppend(a: seq<Field>, b: seq<Field>, isEmail: string -> bool)
    ensures ValidateFields(a + b, isEmail) == ValidateFields(a, isEmail) + ValidateFields(b, isEmail)
  {
    if |a| == 0 {
      assert a + b == b;
    } else {
      var head := FieldViolations(a[0], isEmail);
      assert ValidateFields(a + b, isEmail) == head + ValidateFields(a[1..] + b, isEmail) by {
        assert (a + b)[0] == a[0];
        assert (a + b)[1..] == a[1..] + b;
      }
      ValidateFieldsAppend(a[1..], b, isEmail);
      assert head + (ValidateFields(a[1..], isEmail) + ValidateFields(b, isEmail))
          == (head + ValidateFields(a[1..], isEmail)) + ValidateFields(b, isEmail);
    }
  }

  /** `validator.New().Struct(student)`, as the list of violations. */
  function Validate(s: Student, isEmail: string -> bool): (vs: seq<Violation>)
    ensures |vs| <= 4
    ensures vs == [] <==> Conforms(s, isEmail)
    ensures vs == ExpectedViolations(s, isEmail)
  {
    ValidateFollowsTags(s, isEmail);
    ValidateFields(StudentFields(s), isEmail)
  }

  /** The field constraints a student must meet, stated directly. */
  predicate Conforms(s: Student, isEmail: string -> bool) {
    && s.id != 0
    && s.name != ""
    && s.email != ""
    && isEmail(s.email)
    && s.age != 0
    && 0 <= s.age <= 110
  }

  /** The violations each field contributes, written out tag by tag. */
  function ExpectedViolations(s: Student, isEmail: string -> bool): seq<Violation> {
    IdViolations(s) + (NameViolations(s) + (EmailViolations(s, isEmail) + AgeViolations(s)))
  }

  function IdViolations(s: Student): seq<Violation> {
    if s.id == 0 then [Violation("ID", "required", "")] else []
  }

  function NameViolations(s: Student): seq<Violation> {
    if s.name == "" then [Violation("Name", "required", "")] else []
  }

  function EmailViolations(s: Student, isEmail: string -> bool): seq<Violation> {
    if s.email == "" then [Violation("Email", "required", "")]
    else if !isEmail(s.email) then [Violation("Email", "email", "")]
    else []
  }

  function AgeViolations(s: Student): seq<Violation> {
    if s.age == 0 then [Violation("Age", "required", "")]
    else if s.age < 0 then [Violation("Age", "gte", "0")]
    else if s.age > 110 then [Violation("Age", "lte", "110")]
    else []
  }

  /** The generic tag engine applied to `Student` reports exactly the
      violations written out above: at most one per field, in the order ID,
      Name, Email, Age, and for Age `required` before `gte` before `lte`. */
  lemma ValidateFollowsTags(s: Student, isEmail: string -> bool)
    ensures ValidateFields(StudentFields(s), isEmail) == ExpectedViolations(s, isEmail)
  {
    var fs := StudentFields(s);
    var a, b, c, d := IdViolations(s), NameViolations(s), EmailViolations(s, isEmail), AgeViolations(s);
    IdField(s, isEmail);
    NameField(s, isEmail);
    EmailField(s, isEmail);
    AgeField(s, isEmail);
    assert fs[4..] == [];
    UnfoldFields(fs, 3, isEmail);
    assert ValidateFields(fs[3..], isEmail) == d;
    UnfoldFields(fs, 2, isEmail);
    assert ValidateFields(fs[2..], isEmail) == c + d;
    UnfoldFields(fs, 1, isEmail);
    assert ValidateFields(fs[1..], isEmail) == b + (c + d);
    UnfoldFields(fs, 0, isEmail);
    assert fs[0..] == fs;
    assert ValidateFields(fs, isEmail) == a + (b + (c + d));
  }

  lemma UnfoldFields(fs: seq<Field>, i: nat, isEmail: string -> bool)
    requires i < |fs|
    ensures ValidateFields(fs[i..], isEmail) == FieldViolations(fs[i], isEmail) + ValidateFields(fs[i + 1..], isEmail)
  {
    assert fs[i..][1..] == fs[i + 1..];
  }

  lemma IdField(s: Student, isEmail: string -> bool)
    ensures FieldViolations(StudentFields(s)[0], isEmail) == IdViolations(s)
  {
    var rules := [Required];
    assert StudentFields(s)[0] == Field("ID", IntValue(s.id), rules);
    assert rules[1..] == [];
  }

  lemma NameField(s: Student, isEmail: string -> bool)
    ensures FieldViolations(StudentFields(s)[1], isEmail) == NameViolations(s)
  {
    var rules := [Required];
    assert StudentFields(s)[1] == Field("Name", StrValue(s.name), rules);
    assert rules[1..] == [];
  }

  lemma EmailField(s: Student, isEmail: string -> bool)
    ensures FieldViolations(StudentFields(s)[2], isEmail) == EmailViolations(s, isEmail)
  {
    var f := StudentFields(s)[2];
    var v := StrValue(s.email);
    assert f == Field("Email", v, [Required, Email]);
    var tail := [Required, Email][1..];
    assert tail == [Email] && tail[1..] == [];
    if s.email == "" {
      assert FirstFailure(f.rules, v, isEmail) == Some(Required);
    } else {
      assert FirstFailure(f.rules, v, isEmail) == FirstFailure(tail, v, isEmail);
      assert FirstFailure(tail[1..], v, isEmail) == None;
    }
  }

  lemma AgeField(s: Student, isEmail: string -> bool)
    ensures FieldViolations(StudentFields(s)[3], isEmail) == AgeViolations(s)
  {
    var f := StudentFields(s)[3];
    var v := IntValue(s.age);
    var rules := [Required, Gte(0, "0"), Lte(110, "110")];
    assert f == Field("Age", v, rules);
    var t1 := rules[1..];
    var t2 := t1[1..];
    assert t1 == [Gte(0, "0"), Lte(110, "110")] && t2 == [Lte(110, "110")] && t2[1..] == [];
    if s.age == 0 {
      assert FirstFailure(rules, v, isEmail) == Some(Required);
    } else if s.age < 0 {
      assert FirstFailure(rules, v, isEmail) == FirstFailure(t1, v, isEmail) == Some(Gte(0, "0"));
    } else if s.age > 110 {
      assert FirstFailure(t1, v, isEmail) == FirstFailure(t2, v, isEmail) == Some(Lte(110, "110"));
    } else {
      assert FirstFailure(t2, v, isEmail) == FirstFailure(t2[1..], v, isEmail) == None;
    }
  }
}

=== FILE: wrappers.dfy ===
/** Failure-carrying wrappers shared by the whole model. A Go `error` is
    represented by the text its `Error()` method returns. */
module Wrappers {

  datatype Option<+T> = None | Some(value: T)

  /** The `(value, error)` pair a Go function returns, with exactly one side present. */
  datatype Result<+T> = Ok(value: T) | Err(error: string)
}
